=== FILE: README.md ===
# Huffman codec of the Huffman-CSCI318 main window

A Dafny model of the codec inside the Qt `MainWindow` of Huffman-CSCI318. The
window holds five pieces of state: the loaded `buffer`, the 256-entry frequency
table `freq`, the `toDo` multimap of pending subtrees keyed by frequency, the
`children` map from a merged node to its (first, second) pair, and `rootNode`.
A node is identified by the bytes under it, in merge order.

- **Load** resets the table and counts every byte of a non-empty buffer.
- **Encode** seeds `toDo` with one leaf per present byte. With a single
  present byte it gives that byte the code `"0"` and stops. Otherwise it
  repeatedly merges the two smallest entries, recording each merge in
  `children`, until one entry, the root, is left. It then walks from the
  root to each present byte's leaf to build its code (`'0'` = first child,
  `'1'` = second). Finally it packs the codes of the buffer most significant
  bit first (global bit i is bit 7 - i % 8 of byte i / 8) and cuts the
  result to `(numBits + 7) / 8` bytes.
- **Decode** walks the tree over `numBits` bits, emits a byte each time it
  reaches a leaf and goes back to the root. It stops early when the current
  node has no children.

Layout, one module per concern:

| file | module | content |
|---|---|---|
| bits.dfy | `Bits` | the `byte` type, MSB-first bit addressing, OR of one mask |
| frequency.dfy | `Frequency` | the count table of a buffer and its sum |
| queue.dfy | `Queue` | `toDo` as a key-sorted sequence; multimap insertion |
| tree.dfy | `Tree` | the children map, well-formed subtrees, codes, the decoder's state machine |
| codec.dfy | `Codec` | the emitted code string, the packed-bits invariant, the inner packing loop, round trip |
| build.dfy | `Build` | the invariants of seeding and merging, the seed order, and the merge-until-one function, on plain values |
| mainwindow.dfy | `Window` | the `MainWindow` class: its fields and the load, encode and decode steps |

The class keeps the source's fields. `freq` is a `seq<int>` that the load step
reassigns. `toDo` is a sequence of `(count, identity)` entries kept sorted by
count. `children` is a `map`. Among equal counts a new entry goes in front of
the older ones; this is the order in which `QMultiMap` returns values for one
key (most recent first). The invariants of the build rely only on the keys
being sorted. The tie order is what makes the seeded queue unique, and with
it the tree the merges build.
Packed payloads are `seq<bv8>`. Loaded and decoded data are sequences of the
`byte` newtype (an unsigned char).

## Model

| member | source | states |
|---|---|---|
| Window.MainWindow.constructor | mainwindow.cpp:15-17 | the table starts as 256 zeros; queue, map, root and buffer start empty |
| Window.MainWindow.Load | mainwindow.cpp:72-89 | the buffer becomes the file's bytes, even when there are none; an empty buffer leaves the table unchanged; otherwise the table is reset and entry b ends as the number of occurrences of b, so the entries sum to the buffer length |
| Frequency.CountsOf | mainwindow.cpp:84-89 | the count table has 256 non-negative entries |
| Frequency.CountsSnoc | mainwindow.cpp:86-88 | counting one more byte x raises entry x by one and no other entry |
| Frequency.SumOfCounts | mainwindow.cpp:84-89 | the 256 counts of a buffer sum to its length |
| Queue.Insert | mainwindow.cpp:120 | `QMultiMap::insert` used at lines 120 and 153: the queue afterwards holds the old entries plus the new one, as a multiset (where the new entry lands, newest first among equal keys, is Queue.InsertShape) |
| Queue.InsertPos | mainwindow.cpp:120 | the insertion point of key k has every smaller key before it and every key >= k after it |
| Queue.InsertShape | mainwindow.cpp:120 | insertion puts the entry at that point and keeps the old entries in their order |
| Queue.InsertSorted | mainwindow.cpp:153 | insertion keeps the queue sorted by key |
| Queue.InsertKeeps | mainwindow.cpp:153 | insertion adds the entry's key to the key sum and its bytes to the bytes held |
| Queue.InsertMembers | mainwindow.cpp:153 | after insertion the queue holds exactly the old entries plus the new one |
| Queue.PopTwo | mainwindow.cpp:142-148 | dropping the two front entries removes exactly their keys and bytes |
| Build.LeavesStep | mainwindow.cpp:117-122 | each seeding step adds the leaf of byte value i in seed order: ascending counts, and among equal counts the larger byte value first |
| Build.InsertOrdered | mainwindow.cpp:120 | inserting a leaf whose byte value exceeds every byte value queued keeps seed order, because `QMultiMap::insert` puts a new entry before the entries with an equal key |
| Build.OrderedUnique | mainwindow.cpp:117-122 | two queues in seed order with the same entries are equal |
| Build.LeavesUnique | mainwindow.cpp:117-122 | the seeded queue is decided by the frequency table alone: any two queues holding, in seed order, exactly the leaves of the present bytes are equal |
| Build.SeedStep | mainwindow.cpp:117-122 | each seeding step keeps the queue sorted: one leaf per present byte below i, keyed by its count, keys summing to the counts below i |
| Build.SeededForest | mainwindow.cpp:117-122 | after all 256 steps the queue is a forest: key sum = total count, each present byte held once |
| Build.MergedSorted | mainwindow.cpp:140-155 | one merge keeps the queue sorted and makes it one entry shorter |
| Build.MergeAll | mainwindow.cpp:140-158 | merging the two front entries until at most one is left ends with a single entry for a non-empty queue |
| Build.MergeStep | mainwindow.cpp:140-155 | a merge keeps the queue sorted, shrinks it by one and keeps the key sum, each present byte once and every pending subtree well formed |
| Build.MergeCounts | mainwindow.cpp:141-153 | a merge keeps the key sum and the multiset of held bytes |
| Build.MergeWellFormed | mainwindow.cpp:150-154 | after a merge every recorded parent is its two children concatenated, and every pending subtree stays well formed |
| Build.RestWellFormed | mainwindow.cpp:154 | recording the new parent leaves the untouched entries well formed |
| Tree.WellFormedUpdate | mainwindow.cpp:154 | adding a map entry for a node that cannot lie inside a subtree leaves the subtree well formed |
| Build.SingleTree | mainwindow.cpp:158 | the lone remaining entry carries the total count, is well formed and holds each present byte exactly once |
| Build.RootIsMerged | mainwindow.cpp:140-158 | when the build started with two or more entries, the root is a merged node |
| Window.MainWindow.SeedQueue | mainwindow.cpp:117-122 | the queue becomes sorted, with one leaf per present byte keyed by its count, forming a forest, in seed order, which makes it the unique queue Build.LeavesUnique describes |
| Window.MainWindow.MergeTwoSmallest | mainwindow.cpp:141-154 | the two front keys are the two smallest; the queue becomes the rest plus their merge keyed by the summed count; the map records parent -> (first, second); the forest invariants hold |
| Window.MainWindow.BuildTree | mainwindow.cpp:140-158 | the new queue and children map are exactly Build.MergeAll of the old ones, the result of merging the two smallest entries repeatedly; after k-1 merges one entry is left, and its identity is the root, which carries the total count, holds each present byte once and is well formed |
| Tree.Contains | mainwindow.cpp:174-179 | `QByteArray::contains`: true exactly when the needle occurs as a contiguous run of the haystack at some offset |
| Tree.ContainsSingle | mainwindow.cpp:174 | `contains` with a one-byte needle is byte membership |
| Tree.CodeOf | mainwindow.cpp:167-184 | the code the walk builds from node n towards a leaf: '0' for the first child, '1' for the second; it is shorter than the number of bytes under n |
| Tree.WalkStep | mainwindow.cpp:172-184 | on a well-formed tree, each node on the walk other than the target leaf is internal, and the target lies in one of its children |
| Window.MainWindow.CodeFor | mainwindow.cpp:164-184 | the walk stops, returns the code of the target, leads from the root to the one-byte leaf, and is non-empty when the root is internal |
| Tree.CodeReachesLeaf | mainwindow.cpp:171-184 | a code is made of '0' and '1', leads to the leaf of its byte, and is empty only when the node is that leaf |
| Tree.PrefixFree | mainwindow.cpp:161-193 | the code of one byte of a tree is never a prefix of the code of another |
| Window.MainWindow.GenerateCodes | mainwindow.cpp:161-193 | present bytes get their tree codes, which are non-empty when the root is internal and prefix-free; absent bytes keep "" |
| Window.MainWindow.BuildCodes | mainwindow.cpp:117-193 | on a fresh queue: the seeded queue holds the leaves of the present bytes in seed order, so the frequency table decides it. With one present byte, that byte alone gets "0" and no merge happens. Otherwise the queue and the children map are Build.MergeAll of the seeded queue and the old map, the root holds every present byte once, and the table holds the tree codes of the present bytes |
| Window.MainWindow.CodesFromQueue | mainwindow.cpp:124-193 | from a seeded forest: one present byte gets "0" and nothing else changes; otherwise the tree is Build.MergeAll of the queue, and the table holds the tree codes of the present bytes and "" elsewhere |
| Window.SignedCharIndex | mainwindow.cpp:130 | the single-symbol branch's row index is in range exactly for bytes below 128 |
| Bits.OrBit | mainwindow.cpp:214-219 | ORing the mask of bit i sets bit i and changes no other bit |
| Bits.AppendZero | mainwindow.cpp:210-212 | an appended zero byte changes no old bit and adds eight clear ones |
| Bits.TruncateBits | mainwindow.cpp:226 | cutting the buffer keeps the bits of the bytes that remain |
| Codec.EmitPrefix | mainwindow.cpp:203-204 | the codes of a prefix of the buffer are a prefix of the buffer's codes |
| Codec.EmitNext | mainwindow.cpp:203-204 | the codes of i + 1 bytes are the codes of i bytes followed by the code of byte i |
| Codec.CarriesNothing | mainwindow.cpp:200-201 | a zero-filled buffer carries the empty code string |
| Codec.CarriesGrown | mainwindow.cpp:210-212 | appending a zero byte keeps what the buffer carries |
| Codec.CarriesOne | mainwindow.cpp:214-219 | ORing in the next bit's mask writes a '1' |
| Codec.CarriesOther | mainwindow.cpp:207-221 | leaving the next bit alone writes a '0' |
| Codec.CarriesTruncated | mainwindow.cpp:226 | cutting to (n + 7) / 8 bytes keeps the n written bits |
| Codec.WriteCode | mainwindow.cpp:206-223 | writing one code advances the bit count by its length and sets exactly its '1' bits; later bits stay clear |
| Window.MainWindow.PackBits | mainwindow.cpp:196-226 | numBits is the total code length of the buffer; the result has (numBits + 7) / 8 bytes; bit i is set exactly when the i-th emitted code character is '1' |
| Codec.OrInto | mainwindow.cpp:200-219 | over a buffer of arbitrary contents, every '1' bit ends up set and no earlier bit is cleared |
| Codec.StaleBitsSurvive | mainwindow.cpp:200-201 | packing the codes "0" and "1" of a two-byte buffer into a three-byte pre-size whose first byte is a stale 0xFF reads the first bit back as set |
| Bits.ReadBits | mainwindow.cpp:316-317 | the decoder reads bit i of the payload with the packer's addressing, for exactly numBits bits |
| Tree.Decode | mainwindow.cpp:316-357 | the decoder's state machine over a bit string; on a well-formed tree it emits at most one byte per bit read |
| Tree.DecodeStep | mainwindow.cpp:316-355 | one decoder step: a set bit goes to the second child, a clear one to the first; a leaf is emitted and the walk restarts at the root |
| Window.MainWindow.DecodeHuffman | mainwindow.cpp:311-358 | the output is the state machine's result on the first numBits bits, and is empty when the root has no children |
| Tree.DecodeCode | mainwindow.cpp:316-357 | decoding a byte's code from a node emits exactly that byte and resumes at the root |
| Tree.DecodePartialCode | mainwindow.cpp:316-357 | a code cut short emits nothing: an incomplete trailing code is dropped |
| Codec.DecodeEmitted | mainwindow.cpp:203-226 | decoding the codes of a buffer gives the buffer back, then decoding goes on with the bits that follow |
| Codec.PackedRoundTrip | mainwindow.cpp:311-358 | a payload whose first n bits are the codes of s decodes, over n bits, to s |
| Codec.TrailingBitsDropped | mainwindow.cpp:311-358 | trailing bits that begin a code but do not finish it add nothing to the output |
| Window.SessionRoundTrip | mainwindow.cpp:76-358 | load and encode (lines 76-226) followed by `decodeHuffman` (lines 311-358): with a table counting the buffer, a tree whose root holds each present byte once, and a payload carrying the buffer's codes, decoding gives back the buffer |

## Left out

- The Qt interface is not modelled: windows, buttons, `connect`, table cells, row hiding, message boxes and the file-size report. It has no codec behaviour.
- File dialogs and file and stream I/O are not modelled: reading the input file, `saveTrueEncoding`, and the `QDataStream` header read by `clickedDecodeButton`. Load takes the file's bytes as a parameter. PackBits returns the payload and its bit count. DecodeHuffman takes them as parameters.
- The reader allocates exactly (numBits + 7) / 8 payload bytes. This appears only as DecodeHuffman's requirement that numBits fit in the payload.
- The `decodedFreq` refresh inside the decoder updates display cells only and is not modelled. Neither are the `qDebug()` error messages the decoder prints before it stops at a node without children (mainwindow.cpp:319 and 325); only the early stop itself is modelled.
- `unpackBits` is declared in mainwindow.h with no definition; it is not part of this model.
- Counts and `numBits` are 32-bit `int`s in the source and unbounded here: overflow on inputs of 2^31 bytes or bits is not modelled.
- Window.MainWindow.PackBits: the pre-size `(buffer.size() * 8) / 8 + 1` at mainwindow.cpp:200 is modelled as `|buffer| + 1`. In the source's 32-bit `int` the product `buffer.size() * 8` overflows once the buffer reaches 2^28 bytes, and `resize` then receives a wrong size; that is not modelled.
- Window.MainWindow.PackBits: the |buffer| + 1 pre-sized bytes are taken as zero-filled, while `resize` at mainwindow.cpp:201 leaves them uninitialised. The as-written behaviour over arbitrary bytes is Codec.OrInto, and the Findings table shows what it breaks.
- Window.MainWindow.PackBits: requires the total code length to fit in the |buffer| + 1 pre-sized bytes. The source does not check this. It holds for Huffman codes over a 256-byte alphabet by optimality, which is not proved here.
- Window.MainWindow.BuildTree: the tree is pinned as the result of repeated two-smallest merges (Build.MergeAll). Its optimality, the minimal weighted code length sum of freq[b] * |code of b|, is not proved.
- Window.MainWindow.BuildCodes: the codes are those of the merge-built tree. That they minimise the weighted code length is not proved.
- Window.MainWindow.BuildCodes: requires an empty queue (a fresh session). The source never clears `toDo` or `children`, so a second encode in one session starts from the previous root. That case is not modelled. A stale children map is allowed.
- Window.MainWindow.BuildCodes: requires at least one present byte. Encoding with an all-zero table dereferences the first entry of an empty multimap.
- The encode button is split in two: BuildCodes (lines 117-193) and PackBits (lines 196-226). BuildCodes in turn calls SeedQueue (lines 117-122) and then CodesFromQueue (lines 124-193). When BuildCodes reports `SingleSymbol`, the source returns before packing, so nothing is packed or saved.
- The load/encode/decode sequence is proved as a lemma on values (Window.SessionRoundTrip), not by one method that runs all three steps.
- Window.MainWindow.CodeFor: requires a well-formed tree. This excludes the source's endless loop when neither child contains the target (lines 179-184).
- Qt's order among equal keys is fixed to newest-first: `QMultiMap::insert` puts a new entry before the entries with an equal key. The forest invariants (key sum, each present byte once, well-formedness), prefix-freedom and the round trip hold for any tie order. The seed order (Build.Precedes, Build.InsertOrdered, Build.LeavesStep), the uniqueness of the seeded queue (Build.LeavesUnique) and the exact merge-built tree that BuildTree and BuildCodes pin through Build.MergeAll rely on newest-first.

## Findings

| source | as written | input that shows it | evidently intended | confidence | as-written member | corrected member |
|---|---|---|---|---|---|---|
| mainwindow.cpp:130 | the single-symbol branch indexes the code table (and the table row at line 133) with the byte read as a plain, signed `char` | a file made only of 0xFF bytes: the index is -1, outside the 256-entry table | index with the unsigned byte value, as the packer does at line 204 | not executed; assumes `char` is signed, as on x86 | Window.SignedCharIndex | Window.MainWindow.BuildCodes |
| mainwindow.cpp:200-201 | the pre-sized payload bytes come from `resize`, which leaves new bytes uninitialised, and the packer only ORs bits in, so a stale set bit stays set | a buffer of two distinct bytes with codes "0" and "1", packed into the three pre-sized bytes, the first of them a stale 0xFF: bit 0 reads back as 1 | zero-filled payload bytes before packing | not executed; Qt documents the bytes added by `resize` as uninitialised | Codec.StaleBitsSurvive | Window.MainWindow.PackBits |

=== FILE: bits.dfy ===
/** Bytes and the MSB-first bit addressing shared by the packer and the
    decoder: global bit i lives in byte i / 8 at bit position 7 - i % 8. */
module Bits {

  /** One byte of a buffer (an unsigned char). */
  newtype byte = x: int | 0 <= x < 256

  /** The mask `1 << (7 - p)` selecting bit p of a byte, counted from the
      most significant end. */
  function Mask(p: int): bv8
    requires 0 <= p < 8
  {
    1 << (7 - p)
  }

  /** Global bit i of a packed buffer is set. */
  predicate BitAt(data: seq<bv8>, i: int)
    requires 0 <= i < 8 * |data|
  {
    data[i / 8] & Mask(i % 8) != 0
  }

  /** The first n bits of a packed buffer, as the decoder reads them (none
      when n is not positive). */
  function ReadBits(data: seq<bv8>, n: int): (r: seq<bool>)
    requires n <= 8 * |data|
    ensures |r| == if n < 0 then 0 else n
    ensures forall i :: 0 <= i < |r| ==> r[i] == BitAt(data, i)
  {
    seq(if n < 0 then 0 else n, i requires 0 <= i < n => BitAt(data, i))
  }

  /** ORing the mask of bit i into byte i / 8 sets bit i and leaves every
      other bit as it was: bits are only ever added. */
  lemma OrBit(data: seq<bv8>, i: int)
    requires 0 <= i < 8 * |data|
    ensures var r := data[i / 8 := data[i / 8] | Mask(i % 8)];
      |r| == |data| &&
      forall j :: 0 <= j < 8 * |data| ==> BitAt(r, j) == (BitAt(data, j) || j == i)
  {
    forall j | 0 <= j < 8 * |data| {
      OrBitAt(data, i, j);
    }
  }

  /** OrBit for one bit j. */
  lemma OrBitAt(data: seq<bv8>, i: int, j: int)
    requires 0 <= i < 8 * |data| && 0 <= j < 8 * |data|
    ensures BitAt(data[i / 8 := data[i / 8] | Mask(i % 8)], j) == (BitAt(data, j) || j == i)
  {
    if j / 8 == i / 8 {
      assert j == i <==> j % 8 == i % 8;
      MaskOr(data[i / 8], i % 8, j % 8);
    }
  }

  /** Bit arithmetic on a single byte behind OrBit. */
  lemma MaskOr(x: bv8, a: int, b: int)
    requires 0 <= a < 8 && 0 <= b < 8
    ensures ((x | Mask(a)) & Mask(b) != 0) == (a == b || x & Mask(b) != 0)
  {
  }

  /** An appended zero byte adds eight clear bits and changes no old bit. */
  lemma AppendZero(data: seq<bv8>)
    ensures forall j :: 0 <= j < 8 * |data| ==> BitAt(data + [0], j) == BitAt(data, j)
    ensures forall j :: 8 * |data| <= j < 8 * |data| + 8 ==> !BitAt(data + [0], j)
  {
    forall j | 8 * |data| <= j < 8 * |data| + 8
      ensures !BitAt(data + [0], j)
    {
      assert (data + [0])[j / 8] == 0;
      ZeroMask(j % 8);
    }
  }

  lemma ZeroMask(p: int)
    requires 0 <= p < 8
    ensures (0 as bv8) & Mask(p) == 0
  {
  }

  /** A zero-filled buffer has no bit set. */
  lemma ZerosClear(data: seq<bv8>)
    requires forall k :: 0 <= k < |data| ==> data[k] == 0
    ensures forall j :: 0 <= j < 8 * |data| ==> !BitAt(data, j)
  {
    forall j | 0 <= j < 8 * |data|
      ensures !BitAt(data, j)
    {
      ZeroMask(j % 8);
    }
  }

  /** Truncating a buffer keeps the bits of the bytes that remain. */
  lemma TruncateBits(data: seq<bv8>, n: nat)
    requires n <= |data|
    ensures forall j :: 0 <= j < 8 * n ==> BitAt(data[..n], j) == BitAt(data, j)
  {
  }
}

=== FILE: build.dfy ===
/** The invariants of tree construction, stated on plain values: a queue of
    pending subtrees, the frequency table and the children map. */
module Build {

  import opened Bits
  import opened Frequency
  import opened Queue
  import opened Tree

  /** Every byte with a non-zero count occurs exactly once across the queue's
      identities, and no other byte occurs. */
  ghost predicate EachPresentOnce(t: seq<Entry>, f: seq<int>)
    requires |f| == 256
  {
    forall b: byte :: multiset(Flatten(t))[b] == if f[b] > 0 then 1 else 0
  }

  /** The queue during the build: keys add up to the total count, each present
      byte is held once, and every pending identity is a well-formed subtree. */
  ghost predicate Forest(t: seq<Entry>, f: seq<int>, m: Children)
    requires |f| == 256
  {
    KeySum(t) == Sum(f) &&
    EachPresentOnce(t, f) &&
    (forall e | e in t :: |e.1| >= 1 && WellFormed(m, e.1))
  }

  /** The queue after seeding the byte values below i: one single-byte leaf
      per present value, keyed by its count. */
  ghost predicate SeededBelow(t: seq<Entry>, f: seq<int>, i: int, m: Children)
    requires |f| == 256 && 0 <= i <= 256
  {
    KeySum(t) == Sum(f[..i]) &&
    (forall b: byte :: multiset(Flatten(t))[b] == if (b as int) < i && f[b] > 0 then 1 else 0) &&
    (forall e | e in t :: |e.1| == 1 && e.0 == f[e.1[0]] && WellFormed(m, e.1))
  }

  /** The queue entry the seeding loop adds for byte value i, if any. */
  function SeedOne(t: seq<Entry>, f: seq<int>, i: int): seq<Entry>
    requires |f| == 256 && 0 <= i < 256 && Sorted(t)
  {
    if f[i] > 0 then Insert(t, (f[i], [i as byte])) else t
  }

  /** The queue entry of byte value b: its count and its one-byte leaf. */
  function Leaf(f: seq<int>, b: byte): Entry
    requires |f| == 256
  {
    (f[b], [b])
  }

  /** Entry a comes before entry b in the seeded queue: a smaller count, or
      the same count and a larger byte value, since the later insertion of
      an equal key goes first. */
  ghost predicate Precedes(a: Entry, b: Entry)
  {
    a.0 < b.0 || (a.0 == b.0 && |a.1| == 1 && |b.1| == 1 && a.1[0] > b.1[0])
  }

  /** Every entry of t comes before every later one. */
  ghost predicate SeedOrdered(t: seq<Entry>)
  {
    forall i, j :: 0 <= i < j < |t| ==> Precedes(t[i], t[j])
  }

  /** t holds, in seed order, the leaf of every present byte value below i
      and nothing else. */
  ghost predicate LeavesBelow(t: seq<Entry>, f: seq<int>, i: int)
    requires |f| == 256 && 0 <= i <= 256
  {
    SeedOrdered(t) &&
    (forall e | e in t :: |e.1| == 1 && (e.1[0] as int) < i && f[e.1[0]] > 0 && e == Leaf(f, e.1[0])) &&
    (forall b: byte :: (b as int) < i && f[b] > 0 ==> Leaf(f, b) in t)
  }

  /** One step of the seeding loop adds the leaf of byte value i in its
      place in seed order. */
  lemma LeavesStep(t: seq<Entry>, f: seq<int>, i: int)
    requires |f| == 256 && 0 <= i < 256 && Sorted(t) && LeavesBelow(t, f, i)
    ensures LeavesBelow(SeedOne(t, f, i), f, i + 1)
  {
    if f[i] > 0 {
      var e := Leaf(f, i as byte);
      InsertOrdered(t, e);
      InsertMembers(t, e);
    }
  }

  /** Inserting a leaf whose byte value exceeds every byte value in the
      queue keeps the queue in seed order. */
  lemma InsertOrdered(t: seq<Entry>, e: Entry)
    requires Sorted(t) && SeedOrdered(t) && |e.1| == 1
    requires forall x | x in t :: |x.1| == 1 && x.1[0] < e.1[0]
    ensures SeedOrdered(Insert(t, e))
  {
    var p := InsertPos(t, e.0);
    var r := Insert(t, e);
    InsertShape(t, e);
    assert |r| == |t| + 1 && r[p] == e;
    assert forall a :: 0 <= a < p ==> r[a] == t[a];
    assert forall a :: p < a < |r| ==> r[a] == t[a - 1];
    forall a, b | 0 <= a < b < |r|
      ensures Precedes(r[a], r[b])
    {
      if b == p {
      } else if a == p {
        assert t[b - 1] in t;
      } else if b < p {
      } else if a < p {
        assert Precedes(t[a], t[b - 1]);
      } else {
        assert Precedes(t[a - 1], t[b - 1]);
      }
    }
  }

  /** Two queues in seed order with the same entries are the same queue. */
  lemma {:induction false} OrderedUnique(s: seq<Entry>, t: seq<Entry>)
    requires SeedOrdered(s) && SeedOrdered(t)
    requires forall e :: e in s <==> e in t
    ensures s == t
    decreases |s|
  {
    assert s == [] <==> t == [] by {
      if s != [] {
        assert s[0] in t;
      }
      if t != [] {
        assert t[0] in s;
      }
    }
    if s != [] {
      assert s[0] in t && t[0] in s;
      var k :| 0 <= k < |s| && s[k] == t[0];
      var n :| 0 <= n < |t| && t[n] == s[0];
      assert s[0] == t[0];
      forall e
        ensures e in s[1..] <==> e in t[1..]
      {
        if e in s[1..] {
          TailMember(s, t, e);
        }
        if e in t[1..] {
          TailMember(t, s, e);
        }
      }
      OrderedUnique(s[1..], t[1..]);
      assert s == [s[0]] + s[1..] && t == [t[0]] + t[1..];
    }
  }

  /** A later entry of s that t also holds, where both start with the same
      entry, is a later entry of t. */
  lemma TailMember(s: seq<Entry>, t: seq<Entry>, e: Entry)
    requires SeedOrdered(s) && s != [] && t != [] && s[0] == t[0]
    requires e in s[1..] && e in t
    ensures e in t[1..]
  {
    var j :| 0 <= j < |s| - 1 && s[1..][j] == e;
    assert Precedes(s[0], s[j + 1]);
    var m :| 0 <= m < |t| && t[m] == e;
    assert m != 0;
    assert t[1..][m - 1] == e;
  }

  /** The seeded queue is unique: the frequency table alone decides it. */
  lemma LeavesUnique(s: seq<Entry>, t: seq<Entry>, f: seq<int>)
    requires |f| == 256 && LeavesBelow(s, f, 256) && LeavesBelow(t, f, 256)
    ensures s == t
  {
    forall e
      ensures e in s <==> e in t
    {
      if e in s {
        assert Leaf(f, e.1[0]) in t;
      }
      if e in t {
        assert Leaf(f, e.1[0]) in s;
      }
    }
    OrderedUnique(s, t);
  }

  /** One step of the seeding loop keeps the queue sorted and seeded. */
  lemma SeedStep(t: seq<Entry>, f: seq<int>, i: int, m: Children)
    requires |f| == 256 && 0 <= i < 256 && f[i] >= 0
    requires Sorted(t) && ChildrenShape(m) && SeededBelow(t, f, i, m)
    ensures Sorted(SeedOne(t, f, i)) && SeededBelow(SeedOne(t, f, i), f, i + 1, m)
  {
    assert f[..i + 1][..i] == f[..i];
    if f[i] > 0 {
      var leaf := [i as byte];
      var e := (f[i], leaf);
      var r := Insert(t, e);
      assert WellFormed(m, leaf);
      InsertSorted(t, e);
      InsertKeeps(t, e);
      assert KeySum(r) == Sum(f[..i + 1]);
      AddLeafBytes(Flatten(t), Flatten(r), f, i);
      InsertMembers(t, e);
      assert forall x | x in r :: |x.1| == 1 && x.0 == f[x.1[0]] && WellFormed(m, x.1);
    }
  }

  /** Adding the leaf of byte value i to the bytes held below i gives the
      bytes held below i + 1. */
  lemma AddLeafBytes(before: seq<byte>, after: seq<byte>, f: seq<int>, i: int)
    requires |f| == 256 && 0 <= i < 256 && f[i] > 0
    requires forall b: byte :: multiset(before)[b] == if (b as int) < i && f[b] > 0 then 1 else 0
    requires multiset(after) == multiset(before) + multiset([i as byte])
    ensures forall b: byte :: multiset(after)[b] == if (b as int) < i + 1 && f[b] > 0 then 1 else 0
  {
  }

  /** A fully seeded queue is a forest of leaves. */
  lemma SeededForest(t: seq<Entry>, f: seq<int>, m: Children)
    requires |f| == 256 && SeededBelow(t, f, 256, m)
    ensures Forest(t, f, m)
  {
    assert f[..256] == f;
  }

  /** The queue after one merge of its two front entries. */
  function MergedQueue(t: seq<Entry>): seq<Entry>
    requires |t| >= 2 && Sorted(t)
  {
    Insert(t[2..], (t[0].0 + t[1].0, t[0].1 + t[1].1))
  }

  /** The children map after one merge of the queue's two front entries. */
  function MergedChildren(t: seq<Entry>, m: Children): Children
    requires |t| >= 2
  {
    m[t[0].1 + t[1].1 := (t[0].1, t[1].1)]
  }

  /** A merge keeps the queue sorted and one entry shorter. */
  lemma MergedSorted(t: seq<Entry>)
    requires |t| >= 2 && Sorted(t)
    ensures Sorted(MergedQueue(t)) && |MergedQueue(t)| == |t| - 1
  {
    assert Sorted(t[2..]);
    InsertSorted(t[2..], (t[0].0 + t[1].0, t[0].1 + t[1].1));
    assert |multiset(MergedQueue(t))| == |t[2..]| + 1;
  }

  /** The queue and children map the build loop ends with: merge the two
      front entries until at most one entry is left. */
  ghost function MergeAll(t: seq<Entry>, m: Children): (r: (seq<Entry>, Children))
    requires Sorted(t)
    ensures |r.0| == if t == [] then 0 else 1
    decreases |t|
  {
    if |t| <= 1 then (t, m)
    else
      MergedSorted(t);
      MergeAll(MergedQueue(t), MergedChildren(t, m))
  }

  /** A merge keeps the forest: the key sum, each present byte held once, and
      well-formedness of every pending subtree. */
  lemma MergeStep(t: seq<Entry>, f: seq<int>, m: Children)
    requires |f| == 256 && |t| >= 2 && Sorted(t)
    requires ChildrenShape(m) && Forest(t, f, m)
    ensures Sorted(MergedQueue(t)) && |MergedQueue(t)| == |t| - 1
    ensures ChildrenShape(MergedChildren(t, m))
    ensures Forest(MergedQueue(t), f, MergedChildren(t, m))
  {
    MergeCounts(t, f);
    MergeWellFormed(t, f, m);
  }

  /** A merge keeps the queue sorted, its key sum and the bytes it holds. */
  lemma MergeCounts(t: seq<Entry>, f: seq<int>)
    requires |f| == 256 && |t| >= 2 && Sorted(t)
    ensures Sorted(MergedQueue(t)) && |MergedQueue(t)| == |t| - 1
    ensures KeySum(MergedQueue(t)) == KeySum(t)
    ensures multiset(Flatten(MergedQueue(t))) == multiset(Flatten(t))
  {
    var parent := (t[0].0 + t[1].0, t[0].1 + t[1].1);
    PopTwo(t);
    assert Sorted(t[2..]);
    InsertShape(t[2..], parent);
    InsertSorted(t[2..], parent);
    InsertKeeps(t[2..], parent);
  }

  /** A merge keeps every pending subtree well formed: the new node's identity
      is longer than either of its children and shares a byte with no other
      pending subtree, so it can be none of their nodes. */
  lemma MergeWellFormed(t: seq<Entry>, f: seq<int>, m: Children)
    requires |f| == 256 && |t| >= 2 && Sorted(t)
    requires ChildrenShape(m) && Forest(t, f, m)
    ensures ChildrenShape(MergedChildren(t, m))
    ensures forall e | e in MergedQueue(t) :: |e.1| >= 1 && WellFormed(MergedChildren(t, m), e.1)
  {
    var char0, char1 := t[0].1, t[1].1;
    var p := char0 + char1;
    var m' := MergedChildren(t, m);
    assert t[0] in t && t[1] in t;
    PopTwo(t);
    assert Sorted(t[2..]);
    InsertMembers(t[2..], (t[0].0 + t[1].0, p));
    WellFormedUpdate(m, char0, p, (char0, char1), char0[0]);
    WellFormedUpdate(m, char1, p, (char0, char1), char0[0]);
    assert WellFormed(m', p);
    RestWellFormed(t, f, m);
  }

  /** The entries behind the front two share no byte with the new node, so
      recording it leaves them well formed. */
  lemma RestWellFormed(t: seq<Entry>, f: seq<int>, m: Children)
    requires |f| == 256 && |t| >= 2 && Forest(t, f, m)
    ensures forall e | e in t[2..] :: |e.1| >= 1 && WellFormed(MergedChildren(t, m), e.1)
  {
    var char0, char1 := t[0].1, t[1].1;
    var rest := t[2..];
    assert t[0] in t;
    var x := char0[0];
    PopTwo(t);
    assert multiset(Flatten(t))[x] <= 1;
    assert multiset(Flatten(rest))[x] == 0;
    forall e | e in rest
      ensures |e.1| >= 1 && WellFormed(MergedChildren(t, m), e.1)
    {
      assert e in t;
      InFlatten(rest, e);
      WellFormedUpdate(m, e.1, char0 + char1, (char0, char1), x);
    }
  }

  /** A forest reduced to one entry: that entry's identity is the root, which
      holds every present byte once and carries the total count. */
  lemma SingleTree(t: seq<Entry>, f: seq<int>, m: Children)
    requires |f| == 256 && |t| == 1 && Forest(t, f, m)
    ensures t[0].0 == Sum(f) && WellFormed(m, t[0].1)
    ensures forall b: byte :: multiset(t[0].1)[b] == if f[b] > 0 then 1 else 0
  {
    assert t[0] in t;
    assert t[1..] == [];
    assert KeySum(t) == t[0].0;
    assert Flatten(t) == t[0].1;
  }

  /** When the build started from at least two pending subtrees, the one
      left at the end is a merged node: it holds as many bytes as all the
      starting subtrees together, hence at least two. */
  lemma RootIsMerged(start: seq<Entry>, m0: Children, t: seq<Entry>, f: seq<int>, m: Children)
    requires |f| == 256 && Forest(start, f, m0) && Forest(t, f, m) && |t| == 1
    ensures |start| >= 2 ==> t[0].1 in m
  {
    assert t[0] in t && Flatten(t) == t[0].1;
    FlattenLength(start);
    assert multiset(Flatten(t)) == multiset(Flatten(start));
  }
}

=== FILE: codec.dfy ===
/** The code string the packer emits for a buffer, and the round trip from
    packed bits back to the buffer. */
module Codec {

  import opened Bits
  import opened Tree

  /** A 256-entry code table (index = byte value), as the encoder builds it. */
  type CodeTable = seq<seq<char>>

  /** The code characters emitted for buffer s: the codes of its bytes, in
      order. */
  function Emit(codes: CodeTable, s: seq<byte>): seq<char>
    requires |codes| == 256
  {
    if s == [] then [] else Emit(codes, s[..|s| - 1]) + codes[s[|s| - 1]]
  }

  /** The codes of a prefix of a buffer form a prefix of the buffer's codes. */
  lemma {:induction false} EmitPrefix(codes: CodeTable, s: seq<byte>, i: nat)
    requires |codes| == 256 && i <= |s|
    ensures Emit(codes, s[..i]) <= Emit(codes, s)
    decreases |s| - i
  {
    if i < |s| {
      var n := |s| - 1;
      assert s[..i] == s[..n][..i];
      EmitPrefix(codes, s[..n], i);
      assert s[..n] == s[..|s| - 1];
    } else {
      assert s[..i] == s;
    }
  }

  /** The codes of the first i + 1 bytes: those of the first i followed by
      the code of byte i, all within the codes of the whole buffer. */
  lemma EmitNext(codes: CodeTable, s: seq<byte>, i: int)
    requires |codes| == 256 && 0 <= i < |s|
    ensures Emit(codes, s[..i + 1]) == Emit(codes, s[..i]) + codes[s[i]]
    ensures |Emit(codes, s[..i])| + |codes[s[i]]| <= |Emit(codes, s)|
  {
    assert s[..i + 1][..i] == s[..i];
    EmitPrefix(codes, s, i + 1);
  }

  /** The packed buffer enc carries code string e: bit p is set exactly when
      e[p] is '1', and every bit after the last written one is clear. */
  ghost predicate Carries(enc: seq<bv8>, e: seq<char>)
  {
    |e| <= 8 * |enc| &&
    (forall p :: 0 <= p < |e| ==> BitAt(enc, p) == (e[p] == '1')) &&
    (forall p :: |e| <= p < 8 * |enc| ==> !BitAt(enc, p))
  }

  /** A zero-filled buffer carries the empty code string. */
  lemma CarriesNothing(enc: seq<bv8>)
    requires forall k :: 0 <= k < |enc| ==> enc[k] == 0
    ensures Carries(enc, [])
  {
    ZerosClear(enc);
  }

  /** Appending a zero byte keeps what the buffer carries. */
  lemma CarriesGrown(enc: seq<bv8>, e: seq<char>)
    requires Carries(enc, e)
    ensures Carries(enc + [0], e)
  {
    AppendZero(enc);
  }

  /** ORing in the bit after the last written one writes a '1'. */
  lemma CarriesOne(enc: seq<bv8>, e: seq<char>)
    requires Carries(enc, e) && |e| < 8 * |enc|
    ensures Carries(enc[|e| / 8 := enc[|e| / 8] | Mask(|e| % 8)], e + ['1'])
  {
    OrBit(enc, |e|);
  }

  /** Leaving the next bit alone writes any character other than '1'. */
  lemma CarriesOther(enc: seq<bv8>, e: seq<char>, c: char)
    requires Carries(enc, e) && |e| < 8 * |enc| && c != '1'
    ensures Carries(enc, e + [c])
  {
  }

  /** Cutting the buffer to the bytes that hold the written bits keeps them. */
  lemma CarriesTruncated(enc: seq<bv8>, e: seq<char>)
    requires Carries(enc, e)
    ensures (|e| + 7) / 8 <= |enc| && Carries(enc[..(|e| + 7) / 8], e)
  {
    TruncateBits(enc, (|e| + 7) / 8);
  }

  /** The inner loop of the packer: writes the characters of one code at
      bit positions numBits, numBits + 1, ...; a '1' ORs its mask into the
      byte that holds the bit, after appending a zero byte when the bit
      starts a new byte; any other character leaves its bit clear. */
  method WriteCode(encoding: seq<bv8>, bitCount: int, huffmanCode: seq<char>, ghost written: seq<char>)
    returns (trueEncoding: seq<bv8>, numBits: int)
    requires Carries(encoding, written) && bitCount == |written|
    requires |written| + |huffmanCode| <= 8 * |encoding|
    ensures Carries(trueEncoding, written + huffmanCode)
    ensures numBits == bitCount + |huffmanCode| && |encoding| <= |trueEncoding|
  {
    trueEncoding, numBits := encoding, bitCount;
    var j := 0;
    ghost var e := written;
    while j < |huffmanCode|
      invariant 0 <= j <= |huffmanCode|
      invariant e == written + huffmanCode[..j] && numBits == |e|
      invariant |encoding| <= |trueEncoding|
      invariant Carries(trueEncoding, e)
    {
      assert huffmanCode[..j + 1] == huffmanCode[..j] + [huffmanCode[j]];
      if huffmanCode[j] == '1' {
        if numBits % 8 == 0 {
          CarriesGrown(trueEncoding, e);
          trueEncoding := trueEncoding + [0];
        }
        CarriesOne(trueEncoding, e);
        var currentByte := trueEncoding[numBits / 8];
        var bitMask := Mask(numBits % 8);
        currentByte := currentByte | bitMask;
        trueEncoding := trueEncoding[numBits / 8 := currentByte];
      } else {
        CarriesOther(trueEncoding, e, huffmanCode[j]);
      }
      e := e + [huffmanCode[j]];
      numBits := numBits + 1;
      j := j + 1;
    }
    assert huffmanCode[..j] == huffmanCode;
  }

  /** The packer's writes on a buffer whose bytes are whatever they were:
      each '1' of e ORs in its mask, nothing ever clears a bit. */
  function OrInto(enc: seq<bv8>, e: seq<char>): (r: seq<bv8>)
    requires |e| <= 8 * |enc|
    ensures |r| == |enc|
    ensures forall p :: 0 <= p < |e| && e[p] == '1' ==> BitAt(r, p)
    ensures forall p :: 0 <= p < 8 * |enc| && BitAt(enc, p) ==> BitAt(r, p)
  {
    if e == [] then enc
    else
      var n := |e| - 1;
      var r := OrInto(enc, e[..n]);
      if e[n] == '1' then
        OrBit(r, n);
        r[n / 8 := r[n / 8] | Mask(n % 8)]
      else r
  }

  /** A stale set bit in the starting buffer survives the writes. A buffer
      of two distinct bytes with codes "0" and "1" is packed into a pre-size
      of three bytes; when the first of them is a stale 0xFF, the first bit
      reads back as set although the code written there is '0'. */
  lemma StaleBitsSurvive()
    ensures ReadBits(OrInto([0xFF, 0, 0], "01"), 2) != ToBits("01")
  {
    var r := OrInto([0xFF, 0, 0], "01");
    assert BitAt([0xFF, 0, 0], 0);
    assert ReadBits(r, 2)[0];
  }

  /** Decoding the bits of an emitted buffer under the tree the codes came
      from gives the buffer back, and decoding goes on from the root with
      whatever bits follow. */
  lemma {:induction false} DecodeEmitted(m: Children, root: Node, codes: CodeTable, s: seq<byte>, rest: seq<bool>)
    requires WellFormed(m, root) && root in m && |codes| == 256
    requires forall i :: 0 <= i < |s| ==> s[i] in root && codes[s[i]] == CodeOf(m, root, s[i])
    ensures Decode(m, root, ToBits(Emit(codes, s)) + rest, root) == s + Decode(m, root, rest, root)
    decreases |s|
  {
    if s != [] {
      var n := |s| - 1;
      var init, x := s[..n], s[n];
      assert s == init + [x];
      var tail := ToBits(codes[x]) + rest;
      assert Emit(codes, s) == Emit(codes, init) + codes[x];
      assert ToBits(Emit(codes, s)) == ToBits(Emit(codes, init)) + ToBits(codes[x]);
      assert ToBits(Emit(codes, s)) + rest == ToBits(Emit(codes, init)) + tail;
      assert forall i :: 0 <= i < |init| ==> init[i] == s[i];
      DecodeEmitted(m, root, codes, init, tail);
      DecodeCode(m, root, root, x, rest);
      var after := Decode(m, root, rest, root);
      assert Decode(m, root, tail, root) == [x] + after;
      Reassociate(init, [x], after);
    } else {
      assert ToBits(Emit(codes, s)) + rest == rest;
    }
  }

  /** Regrouping a concatenation, stated apart so that the step is proved
      without the context of DecodeEmitted around it. */
  lemma Reassociate(a: seq<byte>, b: seq<byte>, c: seq<byte>)
    ensures a + (b + c) == (a + b) + c
  {
  }

  /** Round trip: any packed buffer whose first n bits are the emitted codes
      of s decodes, reading exactly n bits, to s. */
  lemma {:induction false} PackedRoundTrip(m: Children, root: Node, codes: CodeTable, s: seq<byte>, packed: seq<bv8>, n: int)
    requires WellFormed(m, root) && root in m && |codes| == 256
    requires forall i :: 0 <= i < |s| ==> s[i] in root && codes[s[i]] == CodeOf(m, root, s[i])
    requires n == |Emit(codes, s)| && n <= 8 * |packed|
    requires forall i :: 0 <= i < n ==> BitAt(packed, i) == (Emit(codes, s)[i] == '1')
    ensures Decode(m, root, ReadBits(packed, n), root) == s
  {
    assert ReadBits(packed, n) == ToBits(Emit(codes, s)) + [];
    DecodeEmitted(m, root, codes, s, []);
  }

  /** Trailing bits that are an unfinished code add nothing to the output. */
  lemma {:induction false} TrailingBitsDropped(m: Children, root: Node, codes: CodeTable, s: seq<byte>, t: byte, k: nat)
    requires WellFormed(m, root) && root in m && |codes| == 256
    requires forall i :: 0 <= i < |s| ==> s[i] in root && codes[s[i]] == CodeOf(m, root, s[i])
    requires t in root && k < |CodeOf(m, root, t)|
    ensures Decode(m, root, ToBits(Emit(codes, s)) + ToBits(CodeOf(m, root, t))[..k], root) == s
  {
    DecodeEmitted(m, root, codes, s, ToBits(CodeOf(m, root, t))[..k]);
    DecodePartialCode(m, root, root, t, k);
  }
}

=== FILE: frequency.dfy ===
/** The 256-entry frequency table filled by the load step: entry v counts
    the bytes equal to v in the loaded buffer. */
module Frequency {

  import opened Bits

  /** The count table of a buffer: entry v is the number of occurrences of byte v. */
  function CountsOf(s: seq<byte>): (r: seq<int>)
    ensures |r| == 256
    ensures forall v :: 0 <= v < 256 ==> r[v] >= 0
  {
    seq(256, v requires 0 <= v < 256 => multiset(s)[v as byte])
  }

  /** Sum of a sequence of integers, peeling the last element. */
  function Sum(s: seq<int>): int
  {
    if s == [] then 0 else Sum(s[..|s| - 1]) + s[|s| - 1]
  }

  /** Counting one more byte x bumps exactly entry x by one. */
  lemma CountsSnoc(s: seq<byte>, x: byte)
    ensures CountsOf(s + [x]) == CountsOf(s)[x as int := CountsOf(s)[x as int] + 1]
  {
    var a, b := CountsOf(s + [x]), CountsOf(s)[x as int := CountsOf(s)[x as int] + 1];
    forall v | 0 <= v < 256
      ensures a[v] == b[v]
    {
      assert multiset(s + [x]) == multiset(s) + multiset{x};
    }
  }

  /** Raising one entry by d raises the sum by d. */
  lemma {:induction false} SumUpdate(s: seq<int>, k: int, d: int)
    requires 0 <= k < |s|
    ensures Sum(s[k := s[k] + d]) == Sum(s) + d
  {
    var t := s[k := s[k] + d];
    var n := |s| - 1;
    if k == n {
      assert t[..n] == s[..n];
    } else {
      assert t[..n] == s[..n][k := s[k] + d];
      SumUpdate(s[..n], k, d);
    }
  }

  /** A table of zeros sums to zero. */
  lemma {:induction false} SumZeros(n: nat)
    ensures Sum(seq(n, _ => 0)) == 0
  {
    if n > 0 {
      assert seq(n, _ => 0)[..n - 1] == seq(n - 1, _ => 0);
      SumZeros(n - 1);
    }
  }

  /** The 256 counts of a buffer add up to its length. */
  lemma {:induction false} SumOfCounts(s: seq<byte>)
    ensures Sum(CountsOf(s)) == |s|
  {
    if s == [] {
      assert CountsOf(s) == seq(256, _ => 0);
      SumZeros(256);
    } else {
      var n := |s| - 1;
      assert s == s[..n] + [s[n]];
      SumOfCounts(s[..n]);
      CountsSnoc(s[..n], s[n]);
      SumUpdate(CountsOf(s[..n]), s[n] as int, 1);
    }
  }
}

=== FILE: mainwindow.dfy ===
/** The encoder/decoder state of the main window: the loaded buffer, the
    256-entry frequency table, the queue of pending subtrees, the children
    map and the root of the last tree built. */
module Window {

  import opened Bits
  import opened Frequency
  import opened Queue
  import opened Tree
  import opened Codec
  import opened Build

  /** How the code-building half of the encode step ends. */
  datatype Outcome =
    /** Only one distinct byte: it gets code "0", no tree is built and
        nothing is packed. */
    | SingleSymbol(symbol: byte, codes: CodeTable)
    /** A tree was built; codes holds the code of every present byte. */
    | Coded(codes: CodeTable)

  class MainWindow {
    var buffer: seq<byte>
    var freq: seq<int>
    var toDo: seq<Entry>
    var children: Children
    var rootNode: Node

    /** What holds between any two button presses. */
    ghost predicate Valid()
      reads this
    {
      |freq| == 256 &&
      (forall v :: 0 <= v < 256 ==> freq[v] >= 0) &&
      Sorted(toDo) &&
      ChildrenShape(children)
    }

    /** The queue, the table and the children map form a forest of pending
        subtrees (see Build.Forest). */
    ghost predicate Building()
      reads this
      requires Valid()
    {
      Forest(toDo, freq, children)
    }

    constructor ()
      ensures Valid()
      ensures buffer == [] && freq == seq(256, _ => 0)
      ensures toDo == [] && children == map[] && rootNode == []
    {
      buffer := [];
      freq := seq(256, _ => 0);
      toDo := [];
      children := map[];
      rootNode := [];
    }

    /** The load step on the bytes read from the chosen file: an empty buffer
        leaves the table alone; otherwise the table is reset and then counts
        every byte of the buffer. */
    method Load(data: seq<byte>)
      requires Valid()
      modifies this`buffer, this`freq
      ensures Valid() && buffer == data
      ensures data == [] ==> freq == old(freq)
      ensures data != [] ==> freq == CountsOf(data) && Sum(freq) == |data|
    {
      buffer := data;
      if |buffer| == 0 {
        return;
      }
      freq := seq(256, _ => 0);
      assert freq == CountsOf(buffer[..0]);
      var i := 0;
      while i < |buffer|
        invariant 0 <= i <= |buffer| && buffer == data
        invariant freq == CountsOf(buffer[..i])
      {
        var b := buffer[i];
        CountsSnoc(buffer[..i], b);
        assert buffer[..i + 1] == buffer[..i] + [b];
        freq := freq[b := freq[b] + 1];
        i := i + 1;
      }
      assert buffer[..i] == buffer;
      SumOfCounts(buffer);
    }

    /** Seeds the queue with one single-byte leaf per byte value with a
        non-zero count, keyed by that count. */
    method SeedQueue()
      requires Valid() && toDo == []
      modifies this`toDo
      ensures Valid() && Building()
      ensures LeavesBelow(toDo, freq, 256)
      ensures forall e | e in toDo :: |e.1| == 1 && e.0 == freq[e.1[0]]
    {
      var i := 0;
      while i < 256
        invariant 0 <= i <= 256
        invariant Valid() && SeededBelow(toDo, freq, i, children)
        invariant LeavesBelow(toDo, freq, i)
      {
        SeedStep(toDo, freq, i, children);
        LeavesStep(toDo, freq, i);
        if freq[i] > 0 {
          var character := [i as byte];
          toDo := Insert(toDo, (freq[i], character));
        }
        i := i + 1;
      }
      SeededForest(toDo, freq, children);
    }

    /** One round of the build loop: take the two front entries of the queue
        (the two smallest keys), record their merge in the children map and
        put the merged entry back, keyed by the sum of their keys. */
    method MergeTwoSmallest()
      requires Valid() && Building() && |toDo| >= 2
      modifies this`toDo, this`children
      ensures Valid() && Building()
      ensures forall i :: 1 <= i < |old(toDo)| ==> old(toDo)[0].0 <= old(toDo)[i].0
      ensures forall i :: 2 <= i < |old(toDo)| ==> old(toDo)[1].0 <= old(toDo)[i].0
      ensures toDo == MergedQueue(old(toDo)) && children == MergedChildren(old(toDo), old(children))
      ensures |toDo| == |old(toDo)| - 1
    {
      ghost var before, links := toDo, children;
      MergeStep(before, freq, links);

      var freq0 := toDo[0].0;
      var char0 := toDo[0].1;
      toDo := toDo[1..];

      var freq1 := toDo[0].0;
      var char1 := toDo[0].1;
      toDo := toDo[1..];
      assert toDo == before[2..];

      var parentFreq := freq0 + freq1;
      var parentChar := char0 + char1;

      toDo := Insert(toDo, (parentFreq, parentChar));
      children := children[parentChar := (char0, char1)];
      assert toDo == MergedQueue(before) && children == MergedChildren(before, links);
    }

    /** The build loop and the choice of the root: merge until one entry is
        left; its identity is the root, which holds every present byte once. */
    method BuildTree() returns (ghost merges: nat)
      requires Valid() && Building() && |toDo| >= 1
      modifies this`toDo, this`children, this`rootNode
      ensures Valid() && Building()
      ensures merges == |old(toDo)| - 1
      ensures |toDo| == 1 && rootNode == toDo[0].1
      ensures toDo[0].0 == Sum(freq)
      ensures WellFormed(children, rootNode)
      ensures forall b: byte :: multiset(rootNode)[b] == if freq[b] > 0 then 1 else 0
      ensures |old(toDo)| >= 2 ==> rootNode in children
      ensures (toDo, children) == MergeAll(old(toDo), old(children))
    {
      ghost var start, links := toDo, children;
      merges := 0;
      while |toDo| > 1
        invariant Valid() && Building() && |toDo| >= 1
        invariant merges + |toDo| == |start|
        invariant MergeAll(toDo, children) == MergeAll(start, links)
        decreases |toDo|
      {
        MergeTwoSmallest();
        merges := merges + 1;
      }
      rootNode := toDo[0].1;
      SingleTree(toDo, freq, children);
      RootIsMerged(start, links, toDo, freq, children);
    }

    /** Walks from the root to the one-byte leaf of target, appending '0' when
        target is in the first child and '1' when it is in the second. */
    method CodeFor(target: byte) returns (code: seq<char>)
      requires WellFormed(children, rootNode) && target in rootNode
      ensures code == CodeOf(children, rootNode, target)
      ensures Follow(children, rootNode, code) == [target]
      ensures rootNode in children ==> |code| >= 1
    {
      var t := [target];
      var current := rootNode;
      code := [];
      while current != t
        invariant WellFormed(children, current) && target in current
        invariant code + CodeOf(children, current, target) == CodeOf(children, rootNode, target)
        decreases |current|
      {
        WalkStep(children, current, target);
        var pair := children[current];
        ContainsSingle(pair.0, target);
        ContainsSingle(pair.1, target);
        if Contains(pair.0, t) {
          assert code + ['0'] + CodeOf(children, pair.0, target) == code + CodeOf(children, current, target);
          code := code + ['0'];
          current := pair.0;
        } else if Contains(pair.1, t) {
          assert code + ['1'] + CodeOf(children, pair.1, target) == code + CodeOf(children, current, target);
          code := code + ['1'];
          current := pair.1;
        } else {
          assert false;
        }
      }
      CodeReachesLeaf(children, rootNode, target);
    }

    /** Code generation: every byte with a non-zero count gets the code of
        its walk from the root; every other byte keeps the empty code. */
    method GenerateCodes() returns (codes: CodeTable)
      requires Valid() && WellFormed(children, rootNode)
      requires forall v :: 0 <= v < 256 && freq[v] > 0 ==> v as byte in rootNode
      ensures |codes| == 256
      ensures forall v :: 0 <= v < 256 ==>
        codes[v] == if freq[v] > 0 then CodeOf(children, rootNode, v as byte) else ""
      ensures rootNode in children ==> forall v :: 0 <= v < 256 && freq[v] > 0 ==> |codes[v]| >= 1
      ensures forall v, w :: 0 <= v < 256 && 0 <= w < 256 && v != w && freq[v] > 0 && freq[w] > 0 ==>
        !(codes[v] <= codes[w])
    {
      codes := seq(256, _ => "");
      var i := 0;
      while i < 256
        invariant 0 <= i <= 256 && |codes| == 256
        invariant forall v :: 0 <= v < i ==>
          codes[v] == if freq[v] > 0 then CodeOf(children, rootNode, v as byte) else ""
        invariant forall v :: i <= v < 256 ==> codes[v] == ""
      {
        if freq[i] > 0 {
          var code := CodeFor(i as byte);
          codes := codes[i := code];
        }
        i := i + 1;
      }
      forall v | 0 <= v < 256 && freq[v] > 0 && rootNode in children
        ensures |codes[v]| >= 1
      {
        CodeReachesLeaf(children, rootNode, v as byte);
      }
      forall v, w | 0 <= v < 256 && 0 <= w < 256 && v != w && freq[v] > 0 && freq[w] > 0
        ensures !(codes[v] <= codes[w])
      {
        PrefixFree(children, rootNode, v as byte, w as byte);
      }
    }

    /** The code-building half of the encode step on a fresh queue: seed the
        queue, then go on as CodesFromQueue. The queue it seeds is the one
        the frequency table decides (Build.LeavesUnique), so the tree is the
        one the merges of the two smallest entries build from it. */
    method BuildCodes() returns (outcome: Outcome, ghost seeded: seq<Entry>)
      requires Valid() && toDo == []
      requires exists v :: 0 <= v < 256 && freq[v] > 0
      modifies this`toDo, this`children, this`rootNode
      ensures Valid() && Building()
      ensures |outcome.codes| == 256
      ensures Sorted(seeded) && LeavesBelow(seeded, freq, 256)
      ensures outcome.SingleSymbol? ==>
        (forall v :: 0 <= v < 256 ==> (freq[v] > 0 <==> v == outcome.symbol as int)) &&
        toDo == [(freq[outcome.symbol], [outcome.symbol])] &&
        children == old(children) && rootNode == old(rootNode) &&
        (forall v :: 0 <= v < 256 ==> outcome.codes[v] == if v == outcome.symbol as int then "0" else "")
      ensures outcome.Coded? ==>
        (toDo, children) == MergeAll(seeded, old(children)) &&
        |toDo| == 1 && rootNode == toDo[0].1 && toDo[0].0 == Sum(freq) &&
        rootNode in children && WellFormed(children, rootNode) &&
        (forall b: byte :: multiset(rootNode)[b] == if freq[b] > 0 then 1 else 0) &&
        (forall v :: 0 <= v < 256 ==>
          outcome.codes[v] == if freq[v] > 0 then CodeOf(children, rootNode, v as byte) else "")
    {
      SeedQueue();
      seeded := toDo;
      outcome := CodesFromQueue();
    }

    /** The encode step after seeding: with a single present byte give it
        code "0" and stop; else build the tree, fix the root and generate
        the codes. */
    method CodesFromQueue() returns (outcome: Outcome)
      requires Valid() && Building()
      requires forall e | e in toDo :: |e.1| == 1 && e.0 == freq[e.1[0]]
      requires exists v :: 0 <= v < 256 && freq[v] > 0
      modifies this`toDo, this`children, this`rootNode
      ensures Valid() && Building()
      ensures |outcome.codes| == 256
      ensures outcome.SingleSymbol? ==>
        (forall v :: 0 <= v < 256 ==> (freq[v] > 0 <==> v == outcome.symbol as int)) &&
        toDo == [(freq[outcome.symbol], [outcome.symbol])] &&
        children == old(children) && rootNode == old(rootNode) &&
        (forall v :: 0 <= v < 256 ==> outcome.codes[v] == if v == outcome.symbol as int then "0" else "")
      ensures outcome.Coded? ==>
        (toDo, children) == MergeAll(old(toDo), old(children)) &&
        |toDo| == 1 && rootNode == toDo[0].1 && toDo[0].0 == Sum(freq) &&
        rootNode in children && WellFormed(children, rootNode) &&
        (forall b: byte :: multiset(rootNode)[b] == if freq[b] > 0 then 1 else 0) &&
        (forall v :: 0 <= v < 256 ==>
          outcome.codes[v] == if freq[v] > 0 then CodeOf(children, rootNode, v as byte) else "")
    {
      var charCodeEncodings: CodeTable := seq(256, _ => "");

      var v :| 0 <= v < 256 && freq[v] > 0;
      assert multiset(Flatten(toDo))[v as byte] == 1;

      if |toDo| == 1 {
        var oneSymbol := toDo[0].1;
        assert toDo[0] in toDo;
        assert toDo == [toDo[0]] && Flatten(toDo) == oneSymbol;
        var sym := oneSymbol[0];
        assert oneSymbol == [sym];
        forall w | 0 <= w < 256
          ensures freq[w] > 0 <==> w == sym as int
        {
          assert multiset(oneSymbol)[w as byte] == if w as byte == sym then 1 else 0;
        }
        charCodeEncodings := charCodeEncodings[sym as int := "0"];
        return SingleSymbol(sym, charCodeEncodings);
      }

      ghost var merges := BuildTree();
      charCodeEncodings := GenerateCodes();
      return Coded(charCodeEncodings);
    }

    /** The packing half of the encode step: the codes of the buffer's bytes
        are written bit by bit, most significant bit first, into a buffer
        pre-sized to |buffer| + 1 zero bytes; '1' characters are ORed in,
        anything else leaves a clear bit; the result is cut to the bytes that
        hold numBits bits. */
    method PackBits(codes: CodeTable) returns (trueEncoding: seq<bv8>, numBits: int)
      requires |codes| == 256
      requires |Emit(codes, buffer)| <= 8 * (|buffer| + 1)
      ensures numBits == |Emit(codes, buffer)|
      ensures |trueEncoding| == (numBits + 7) / 8
      ensures Carries(trueEncoding, Emit(codes, buffer))
    {
      var estimatedEncodingSize := |buffer| + 1;
      trueEncoding := seq(estimatedEncodingSize, _ => 0);
      CarriesNothing(trueEncoding);
      numBits := 0;

      var i := 0;
      while i < |buffer|
        invariant 0 <= i <= |buffer|
        invariant numBits == |Emit(codes, buffer[..i])|
        invariant |buffer| + 1 <= |trueEncoding|
        invariant Carries(trueEncoding, Emit(codes, buffer[..i]))
      {
        var huffmanCode := codes[buffer[i]];
        EmitNext(codes, buffer, i);
        trueEncoding, numBits := WriteCode(trueEncoding, numBits, huffmanCode, Emit(codes, buffer[..i]));
        i := i + 1;
      }
      assert buffer[..i] == buffer;
      ghost var emitted := Emit(codes, buffer);
      assert numBits == |emitted| && Carries(trueEncoding, emitted);
      CarriesTruncated(trueEncoding, emitted);
      trueEncoding := trueEncoding[..(numBits + 7) / 8];
    }

    /** The decoder: reads numBits bits of the payload, MSB first; a set bit
        moves to the second child, a clear bit to the first; a node with no
        children entry is appended to the output and the walk restarts at the
        root; when the current node has no children decoding stops early. */
    method DecodeHuffman(encodedData: seq<bv8>, numBits: int) returns (decodedBinary: seq<byte>)
      requires numBits <= 8 * |encodedData|
      ensures decodedBinary == Decode(children, rootNode, ReadBits(encodedData, numBits), rootNode)
      ensures rootNode !in children ==> decodedBinary == []
    {
      ghost var bits := ReadBits(encodedData, numBits);
      var current := rootNode;
      decodedBinary := [];

      var i := 0;
      while i < numBits
        invariant 0 <= i && (numBits >= 0 ==> i <= numBits) && i <= |bits|
        invariant decodedBinary + Decode(children, rootNode, bits[i..], current) == Decode(children, rootNode, bits, rootNode)
      {
        if current in children {
          DecodeStep(children, rootNode, bits, i, current);
        }
        var bit := BitAt(encodedData, i);
        if bit {
          if current !in children {
            break;
          }
          current := children[current].1;
        } else {
          if current !in children {
            break;
          }
          current := children[current].0;
        }

        if current !in children {
          assert decodedBinary + current + Decode(children, rootNode, bits[i + 1..], rootNode) ==
            decodedBinary + (current + Decode(children, rootNode, bits[i + 1..], rootNode));
          decodedBinary := decodedBinary + current;
          current := rootNode;
        }
        i := i + 1;
      }
    }
  }

  /** The row the single-symbol branch writes the code "0" at, as written:
      the byte is read back through a plain char, which is signed, so byte
      values from 128 up give a negative index. */
  function SignedCharIndex(b: byte): (r: int)
    ensures -128 <= r < 128 && (r - b as int) % 256 == 0
    ensures 0 <= r < 256 <==> b < 128
  {
    if b < 128 then b as int else b as int - 256
  }

  /** A whole session: when the frequency table counts buffer, the tree
      built from it holds each present byte once, and the packed payload
      carries the buffer's codes in its first n bits, decoding the payload
      gives the buffer back. */
  lemma SessionRoundTrip(buffer: seq<byte>, freqs: seq<int>, m: Children, root: Node, codes: CodeTable,
                         packed: seq<bv8>, n: int)
    requires freqs == CountsOf(buffer)
    requires WellFormed(m, root) && root in m
    requires forall b: byte :: multiset(root)[b] == if freqs[b] > 0 then 1 else 0
    requires |codes| == 256
    requires forall v :: 0 <= v < 256 ==> codes[v] == if freqs[v] > 0 then CodeOf(m, root, v as byte) else ""
    requires n == |Emit(codes, buffer)| && n <= 8 * |packed|
    requires forall i :: 0 <= i < n ==> BitAt(packed, i) == (Emit(codes, buffer)[i] == '1')
    ensures Decode(m, root, ReadBits(packed, n), root) == buffer
  {
    forall i | 0 <= i < |buffer|
      ensures buffer[i] in root && codes[buffer[i]] == CodeOf(m, root, buffer[i])
    {
      var b := buffer[i];
      assert b in multiset(buffer);
      assert freqs[b] > 0;
      assert multiset(root)[b] == 1;
    }
    PackedRoundTrip(m, root, codes, buffer, packed, n);
  }
}

=== FILE: queue.dfy ===
/** The pending-subtree queue `toDo`: a multimap from frequency to node
    identity, kept as a sequence of entries sorted by key. */
module Queue {

  import opened Bits

  /** One queue entry: (frequency, node identity). */
  type Entry = (int, seq<byte>)

  /** Keys never decrease along the queue. */
  ghost predicate Sorted(t: seq<Entry>)
  {
    forall i, j :: 0 <= i < j < |t| ==> t[i].0 <= t[j].0
  }

  /** All identities of the queue, concatenated in queue order. */
  function Flatten(t: seq<Entry>): seq<byte>
  {
    if t == [] then [] else t[0].1 + Flatten(t[1..])
  }

  /** Sum of the keys of the queue. */
  function KeySum(t: seq<Entry>): int
  {
    if t == [] then 0 else t[0].0 + KeySum(t[1..])
  }

  /** Number of leading entries whose key is below k: where an insertion of
      key k lands. */
  function InsertPos(t: seq<Entry>, k: int): (p: nat)
    requires Sorted(t)
    ensures p <= |t|
    ensures forall i :: 0 <= i < p ==> t[i].0 < k
    ensures forall i :: p <= i < |t| ==> k <= t[i].0
  {
    if t == [] || k <= t[0].0 then 0 else 1 + InsertPos(t[1..], k)
  }

  /** Multimap insertion: the new entry goes after every smaller key and
      before every entry with an equal or larger key (newest first among
      equal keys). */
  function Insert(t: seq<Entry>, e: Entry): (r: seq<Entry>)
    requires Sorted(t)
    ensures multiset(r) == multiset(t) + multiset{e}
  {
    if t == [] || e.0 <= t[0].0 then [e] + t
    else
      assert t == [t[0]] + t[1..];
      [t[0]] + Insert(t[1..], e)
  }

  /** The inserted entry lands at InsertPos, with the old entries around it
      in their old order. */
  lemma {:induction false} InsertShape(t: seq<Entry>, e: Entry)
    requires Sorted(t)
    ensures Insert(t, e) == t[..InsertPos(t, e.0)] + [e] + t[InsertPos(t, e.0)..]
  {
    if t != [] && t[0].0 < e.0 {
      assert Insert(t, e) == [t[0]] + Insert(t[1..], e);
      InsertShape(t[1..], e);
      var p := InsertPos(t[1..], e.0);
      assert InsertPos(t, e.0) == 1 + p;
      assert t[1..][..p] == t[1..1 + p];
      assert t[1..][p..] == t[1 + p..];
    }
  }

  /** Insertion keeps the queue sorted. */
  lemma InsertSorted(t: seq<Entry>, e: Entry)
    requires Sorted(t)
    ensures Sorted(Insert(t, e))
  {
    var p := InsertPos(t, e.0);
    var r := Insert(t, e);
    InsertShape(t, e);
    forall i, j | 0 <= i < j < |r|
      ensures r[i].0 <= r[j].0
    {
      if i < p && j > p {
        assert r[i] == t[i] && r[j] == t[j - 1];
      } else if i < p && j == p {
        assert r[i] == t[i];
      } else if i < p {
        assert r[i] == t[i] && r[j] == t[j];
      } else if i == p {
        assert r[j] == t[j - 1];
      } else {
        assert r[i] == t[i - 1] && r[j] == t[j - 1];
      }
    }
  }


  lemma {:induction false} FlattenConcat(a: seq<Entry>, b: seq<Entry>)
    ensures Flatten(a + b) == Flatten(a) + Flatten(b)
    ensures KeySum(a + b) == KeySum(a) + KeySum(b)
  {
    if a == [] {
      assert a + b == b;
    } else {
      assert (a + b)[1..] == a[1..] + b;
      FlattenConcat(a[1..], b);
    }
  }

  /** Insertion adds the entry's key to the key sum and its identity to the
      symbols held by the queue, whatever position it takes. */
  lemma InsertKeeps(t: seq<Entry>, e: Entry)
    requires Sorted(t)
    ensures KeySum(Insert(t, e)) == KeySum(t) + e.0
    ensures multiset(Flatten(Insert(t, e))) == multiset(Flatten(t)) + multiset(e.1)
  {
    var p := InsertPos(t, e.0);
    InsertShape(t, e);
    assert t == t[..p] + t[p..];
    FlattenConcat(t[..p], t[p..]);
    FlattenConcat(t[..p] + [e], t[p..]);
    FlattenConcat(t[..p], [e]);
  }

  /** The inserted queue holds the new entry and the old ones, nothing else. */
  lemma InsertMembers(t: seq<Entry>, e: Entry)
    requires Sorted(t)
    ensures e in Insert(t, e)
    ensures forall x | x in Insert(t, e) :: x == e || x in t
    ensures forall x | x in t :: x in Insert(t, e)
  {
    var p := InsertPos(t, e.0);
    InsertShape(t, e);
    assert t == t[..p] + t[p..];
  }

  /** Every entry's identity lies inside the flattened queue. */
  lemma {:induction false} InFlatten(t: seq<Entry>, e: Entry)
    requires e in t
    ensures multiset(e.1) <= multiset(Flatten(t))
  {
    if t[0] != e {
      InFlatten(t[1..], e);
    }
  }

  /** Dropping the two front entries removes their keys and identities. */
  lemma PopTwo(t: seq<Entry>)
    requires |t| >= 2
    ensures KeySum(t) == t[0].0 + t[1].0 + KeySum(t[2..])
    ensures Flatten(t) == t[0].1 + t[1].1 + Flatten(t[2..])
  {
    assert t[1..][1..] == t[2..];
  }

  /** With non-empty identities the flattened queue is at least as long as the queue. */
  lemma {:induction false} FlattenLength(t: seq<Entry>)
    requires forall e | e in t :: |e.1| >= 1
    ensures |Flatten(t)| >= |t|
  {
    if t != [] {
      assert forall e | e in t[1..] :: e in t;
      FlattenLength(t[1..]);
    }
  }
}

=== FILE: tree.dfy ===
/** The Huffman tree as the encoder keeps it: a node is identified by the
    byte sequence of the symbols under it, and the children map sends every
    merged node to its (first, second) pair. A node that is not a key of the
    map is a leaf. */
module Tree {

  import opened Bits

  type Node = seq<byte>
  type Children = map<Node, (Node, Node)>

  /** needle occurs in hay starting at offset i. */
  predicate OccursAt(hay: seq<byte>, needle: seq<byte>, i: int)
  {
    0 <= i && i + |needle| <= |hay| && hay[i..i + |needle|] == needle
  }

  /** QByteArray::contains on byte arrays: needle occurs as a contiguous run
      of hay. */
  function Contains(hay: seq<byte>, needle: seq<byte>): (r: bool)
    ensures r <==> exists i :: OccursAt(hay, needle, i)
    decreases |hay|
  {
    if |needle| > |hay| then false
    else if hay[..|needle|] == needle then
      assert OccursAt(hay, needle, 0);
      true
    else if hay == [] then false
    else
      var rest := Contains(hay[1..], needle);
      OccursShift(hay, needle);
      assert !OccursAt(hay, needle, 0);
      rest
  }

  /** An occurrence in hay past offset 0 is an occurrence in hay[1..], one
      place earlier, and back. */
  lemma OccursShift(hay: seq<byte>, needle: seq<byte>)
    requires hay != []
    ensures forall i :: OccursAt(hay[1..], needle, i) ==> OccursAt(hay, needle, i + 1)
    ensures forall j :: OccursAt(hay, needle, j) && j >= 1 ==> OccursAt(hay[1..], needle, j - 1)
  {
    forall i | OccursAt(hay[1..], needle, i)
      ensures OccursAt(hay, needle, i + 1)
    {
      assert hay[1..][i..i + |needle|] == hay[i + 1..i + 1 + |needle|];
    }
    forall j | OccursAt(hay, needle, j) && j >= 1
      ensures OccursAt(hay[1..], needle, j - 1)
    {
      assert hay[1..][j - 1..j - 1 + |needle|] == hay[j..j + |needle|];
    }
  }

  /** With a one-byte needle, contains is byte membership. */
  lemma {:induction false} ContainsSingle(hay: seq<byte>, t: byte)
    ensures Contains(hay, [t]) <==> t in hay
  {
    if hay != [] {
      ContainsSingle(hay[1..], t);
      assert hay == [hay[0]] + hay[1..];
    }
  }

  /** Every merge the map records splits a node into two non-empty halves
      whose concatenation is the node. */
  ghost predicate ChildrenShape(m: Children)
  {
    forall k | k in m :: |m[k].0| >= 1 && |m[k].1| >= 1 && k == m[k].0 + m[k].1
  }

  /** The subtree under n is well formed: every internal node below n is the
      concatenation of its two non-empty children, and every leaf is one byte. */
  ghost predicate WellFormed(m: Children, n: Node)
    decreases |n|
  {
    if n in m then
      |m[n].0| >= 1 && |m[n].1| >= 1 && n == m[n].0 + m[n].1 &&
      WellFormed(m, m[n].0) && WellFormed(m, m[n].1)
    else
      |n| == 1
  }

  /** Recording a new merged node p leaves a well-formed subtree n intact when
      p cannot be one of its nodes: p is longer than n, or holds a byte x that
      n does not. */
  lemma {:induction false} WellFormedUpdate(m: Children, n: Node, p: Node, v: (Node, Node), x: byte)
    requires WellFormed(m, n)
    requires |n| < |p| || (x in p && x !in n)
    ensures WellFormed(m[p := v], n)
    decreases |n|
  {
    assert n != p;
    if n in m {
      var (l, r) := m[n];
      assert forall y | y in l :: y in n;
      assert forall y | y in r :: y in n;
      WellFormedUpdate(m, l, p, v, x);
      WellFormedUpdate(m, r, p, v, x);
    }
  }

  /** The code of symbol t below node n: walk from n towards the one-byte leaf
      [t], writing '0' when t lies in the first child and '1' when it lies in
      the second. */
  function CodeOf(m: Children, n: Node, t: byte): (r: seq<char>)
    requires WellFormed(m, n)
    ensures |r| < |n|
    decreases |n|
  {
    if n == [t] || n !in m then []
    else if t in m[n].0 then ['0'] + CodeOf(m, m[n].0, t)
    else if t in m[n].1 then ['1'] + CodeOf(m, m[n].1, t)
    else []
  }

  /** One step of the walk towards leaf [t]: a node of the walk other than
      the leaf is internal, t lies in one of its children, and the code goes
      on through the first child that holds t. */
  lemma WalkStep(m: Children, n: Node, t: byte)
    requires WellFormed(m, n) && t in n && n != [t]
    ensures n in m && (t in m[n].0 || t in m[n].1)
    ensures t in m[n].0 ==> CodeOf(m, n, t) == ['0'] + CodeOf(m, m[n].0, t)
    ensures t !in m[n].0 ==> CodeOf(m, n, t) == ['1'] + CodeOf(m, m[n].1, t)
  {
  }

  /** The node reached from n by following a code: '1' takes the second
      child, anything else the first; a leaf ends the walk. */
  function Follow(m: Children, n: Node, code: seq<char>): Node
    decreases |code|
  {
    if code == [] || n !in m then n
    else Follow(m, if code[0] == '1' then m[n].1 else m[n].0, code[1..])
  }

  /** A code read as bits: '1' is a set bit. */
  function ToBits(code: seq<char>): (r: seq<bool>)
    ensures |r| == |code|
    ensures forall i :: 0 <= i < |code| ==> r[i] == (code[i] == '1')
  {
    seq(|code|, i requires 0 <= i < |code| => code[i] == '1')
  }

  /** The code of a symbol of n is a string of '0' and '1' that leads from n to
      the leaf [t]; it is empty only when n is that leaf itself. */
  lemma {:induction false} CodeReachesLeaf(m: Children, n: Node, t: byte)
    requires WellFormed(m, n) && t in n
    ensures Follow(m, n, CodeOf(m, n, t)) == [t]
    ensures forall c | c in CodeOf(m, n, t) :: c == '0' || c == '1'
    ensures n in m <==> |CodeOf(m, n, t)| >= 1
    decreases |n|
  {
    if n !in m {
      assert n == [n[0]];
    } else {
      var (l, r) := m[n];
      if t in l {
        CodeReachesLeaf(m, l, t);
        assert (['0'] + CodeOf(m, l, t))[1..] == CodeOf(m, l, t);
      } else {
        CodeReachesLeaf(m, r, t);
        assert (['1'] + CodeOf(m, r, t))[1..] == CodeOf(m, r, t);
      }
    }
  }

  /** Codes are prefix-free: the code of one symbol is never a prefix of the
      code of another symbol of the same tree. */
  lemma {:induction false} PrefixFree(m: Children, n: Node, s: byte, t: byte)
    requires WellFormed(m, n) && s in n && t in n && s != t
    ensures !(CodeOf(m, n, s) <= CodeOf(m, n, t))
    decreases |n|
  {
    if n in m {
      var (l, r) := m[n];
      CodeReachesLeaf(m, n, s);
      CodeReachesLeaf(m, n, t);
      if t in l && s in l {
        PrefixFree(m, l, s, t);
      } else if t !in l && s !in l {
        PrefixFree(m, r, s, t);
      } else {
        assert CodeOf(m, n, s)[0] != CodeOf(m, n, t)[0];
      }
    }
  }

  /** The decoder's state machine over a bit string, from node current:
      a set bit takes the second child, a clear bit the first; reaching a
      node that is not a key of the map emits it and restarts at root; a
      current node without children stops decoding. */
  function Decode(m: Children, root: Node, bits: seq<bool>, current: Node): (r: seq<byte>)
    ensures WellFormed(m, root) && WellFormed(m, current) ==> |r| <= |bits|
    decreases |bits|
  {
    if bits == [] || current !in m then []
    else
      var next := if bits[0] then m[current].1 else m[current].0;
      assert WellFormed(m, current) ==> WellFormed(m, next);
      if next in m then Decode(m, root, bits[1..], next)
      else next + Decode(m, root, bits[1..], root)
  }

  /** One step of the decoder at position i of the bits, from an internal node. */
  lemma DecodeStep(m: Children, root: Node, bits: seq<bool>, i: int, current: Node)
    requires 0 <= i < |bits| && current in m
    ensures var next := if bits[i] then m[current].1 else m[current].0;
      Decode(m, root, bits[i..], current) ==
        if next in m then Decode(m, root, bits[i + 1..], next) else next + Decode(m, root, bits[i + 1..], root)
  {
    assert bits[i..][1..] == bits[i + 1..];
  }

  /** Decoding a symbol's code from node n emits exactly that symbol and
      goes on from the root with the rest of the bits. */
  lemma {:induction false} DecodeCode(m: Children, root: Node, n: Node, t: byte, rest: seq<bool>)
    requires WellFormed(m, n) && n in m && t in n
    ensures Decode(m, root, ToBits(CodeOf(m, n, t)) + rest, n) == [t] + Decode(m, root, rest, root)
    decreases |n|
  {
    var (l, r) := m[n];
    var child := if t in l then l else r;
    var c := if t in l then '0' else '1';
    assert CodeOf(m, n, t) == [c] + CodeOf(m, child, t);
    var bits := ToBits(CodeOf(m, n, t)) + rest;
    assert bits[1..] == ToBits(CodeOf(m, child, t)) + rest;
    if child in m {
      DecodeCode(m, root, child, t, rest);
    } else {
      assert child == [t];
    }
  }

  /** A code cut short emits nothing: an incomplete trailing code is dropped. */
  lemma {:induction false} DecodePartialCode(m: Children, root: Node, n: Node, t: byte, k: nat)
    requires WellFormed(m, n) && n in m && t in n
    requires k < |CodeOf(m, n, t)|
    ensures Decode(m, root, ToBits(CodeOf(m, n, t))[..k], n) == []
    decreases |n|
  {
    if k > 0 {
      var (l, r) := m[n];
      var child := if t in l then l else r;
      var c := if t in l then '0' else '1';
      assert CodeOf(m, n, t) == [c] + CodeOf(m, child, t);
      assert ToBits(CodeOf(m, n, t))[..k][1..] == ToBits(CodeOf(m, child, t))[..k - 1];
      if child in m {
        DecodePartialCode(m, root, child, t, k - 1);
      }
    }
  }
}
